=== FILE: README.md ===
# Task-conditioned meta-RL environments in Dafny

A model of the task-conditioned environments of `pytorch-maml-rl`:

- the half-cheetah locomotion environments whose reward is shaped by a target
  velocity (`HalfCheetahVelEnv`) or a target direction (`HalfCheetahDirEnv`),
  together with the observation layout of their base `HalfCheetahEnv`;
- the single-step multi-armed bandits with Bernoulli and Gaussian rewards
  (`BernoulliBanditEnv`, `GaussianBanditEnv`).

Each environment is an immutable record holding its task state (the active
task dictionary and the goal or means read from it). `reset_task`, `reset` and
`step` are pure state-transition functions. Whatever the Python code reads
from the physics engine or from the environment's random source is a parameter:

- a locomotion step takes the x position before the tick, the simulator
  readings after it (`qpos`, `qvel`, torso centre of mass) and the timestep `dt`;
- sampling takes the draws: unit draws in [0, 1) for `uniform` and `rand`,
  coins in {0, 1} for `binomial(1, 0.5)`;
- a bandit step takes one draw: a unit draw for the Bernoulli reward (the
  reward is 1 exactly when the draw is below the arm's mean), or a
  standard-normal draw `z` for the Gaussian one (the reward is `mean + std * z`).

Rewards and observations are over `real`.

Modules, one per component:

| file | module | models |
|---|---|---|
| `tasks.dfy` | `Tasks` | task dictionaries, `get` with a default, `task[key]`, the error conditions |
| `draws.dfy` | `Draws` | range guarantees of the random source; `uniform(low, high)` from a unit draw |
| `locomotion.dfy` | `Locomotion` | observation layout, control cost, forward velocity, the tail shared by both `step`s |
| `half_cheetah_vel.dfy` | `HalfCheetahVel` | `HalfCheetahVelEnv` |
| `half_cheetah_dir.dfy` | `HalfCheetahDir` | `HalfCheetahDirEnv` |
| `bandit.dfy` | `Bandit` | `BernoulliBanditEnv` and `GaussianBanditEnv`, told apart by `Kind` |

Points worth knowing about the code:

- Both half-cheetah `step`s hard-code the control cost `0.5 * 1e-1 * sum(action^2)`.
  The constructor stores `ctrl_cost_weight` (default 0.1) but no `step` reads it.
- Sampled bandit means lie in [0, 1), the range of `rand`. The class docstrings
  speak of the uniform distribution on [0, 1].
- `uniform(low, high)` of the half-cheetah's random generator demands
  `high - low >= 0`, so `sample_tasks` with reversed bounds is an error.
- `reset_task` is meant to replace a task wholesale. The code stores the new task
  before it reads the goal or means from it, so a task missing the key leaves a
  half-updated environment after the `KeyError` (see Findings). The rest of the
  model uses the corrected `ResetTask`, which replaces both or neither.

## Model

| member | source | states |
|---|---|---|
| Locomotion.Observation | maml_rl/envs/mujoco/half_cheetah.py:42-53 | the observation is `qpos[1:]`, then `qvel`, then the 3-vector torso centre of mass. Its length is `|qpos| - 1 + |qvel| + 3`, and each component is located by index |
| Locomotion.ObservationIgnoresX | maml_rl/envs/mujoco/half_cheetah.py:46 | the x coordinate `qpos[0]` is withheld: states that differ only there give the same observation |
| Locomotion.ObservationWidthMatchesSpace | maml_rl/envs/mujoco/half_cheetah.py:32 | the observation has the declared width 20 exactly when the simulator has 18 generalized coordinates in all |
| Tasks.Get | maml_rl/envs/mujoco/half_cheetah.py:101 | `task.get(key, default)` is the stored value when the key is present and the default otherwise |
| Tasks.Lookup | maml_rl/envs/mujoco/half_cheetah.py:129 | `task[key]` succeeds exactly when the key is present, with the stored value; otherwise it is a missing-key error, never a default |
| Locomotion.Square | maml_rl/envs/mujoco/half_cheetah.py:111 | the square of a component is never negative and is zero only for a zero component |
| Locomotion.SumSquares | maml_rl/envs/mujoco/half_cheetah.py:111 | the sum of squares of the action is never negative |
| Locomotion.SumSquaresAppend | maml_rl/envs/mujoco/half_cheetah.py:111 | the sum of squares of a concatenation is the sum of the parts' sums of squares |
| Locomotion.SumSquaresZero | maml_rl/envs/mujoco/half_cheetah.py:111 | the sum of squares is zero exactly when every action component is zero |
| Locomotion.ControlCost | maml_rl/envs/mujoco/half_cheetah.py:111 | the control cost is never negative, and is zero exactly for the zero action |
| Locomotion.ControlCostSplits | maml_rl/envs/mujoco/half_cheetah.py:163 | the control cost adds up over the parts of an action, and a single component `x` costs `0.05 * (x * x)`, so the cost of an action is `0.05` times the sum of its components' squares |
| Locomotion.ForwardVelocity | maml_rl/envs/mujoco/half_cheetah.py:109 | the forward velocity times `dt` is the x displacement over the tick |
| Locomotion.FinishStep | maml_rl/envs/mujoco/half_cheetah.py:111-120 | a step never ends or truncates the episode, and echoes the active task. `reward_ctrl` is the negated control cost of the action, so it is at most 0. The reward is the forward reward plus `reward_ctrl`, so it never exceeds the forward reward. The observation is the post-tick layout |
| Locomotion.ControlCostIsTaskIndependent | maml_rl/envs/mujoco/half_cheetah.py:163-166 | for the same action the control penalty is the same whatever the task, so two steps' rewards differ exactly by their forward rewards |
| Draws.Uniform | maml_rl/envs/mujoco/half_cheetah.py:123 | a uniform draw succeeds exactly when `low <= high`, and reversed bounds are an invalid-distribution error. The draw lies in `[low, high)` when `low < high`, and equals `low` when the bounds meet |
| HalfCheetahVel.Make | maml_rl/envs/mujoco/half_cheetah.py:93-101 | a float task becomes `{"velocity": t}` with goal `t`. A dictionary is kept as given, and one without a velocity gives goal 0.0. The goal always agrees with the task (`Consistent`) |
| HalfCheetahVel.MakeDefault | maml_rl/envs/mujoco/half_cheetah.py:93 | with all constructor defaults the task is `{"velocity": 1.0}`, the goal 1.0 and the range [0, 2) |
| HalfCheetahVel.ResetTaskAsWritten | maml_rl/envs/mujoco/half_cheetah.py:127-129 | as written, the task is always replaced. The goal is replaced only when the task has a velocity, and otherwise the call fails with the old goal kept |
| HalfCheetahVel.ResetTaskAsWrittenBreaksConsistency | maml_rl/envs/mujoco/half_cheetah.py:127-129 | after the code as written fails on `{}`, the environment reports a task without a velocity but still rewards the old goal 1.5 |
| HalfCheetahVel.ResetTask | maml_rl/envs/mujoco/half_cheetah.py:127-129 | succeeds exactly when the task names a velocity. It then replaces the task and sets the goal to that velocity, keeping the range and consistency. Otherwise it fails with a missing-key error and no default |
| HalfCheetahVel.ResetTaskAgreesOnSuccess | maml_rl/envs/mujoco/half_cheetah.py:127-129 | on every task the corrected `reset_task` succeeds exactly when the code as written does, and then leaves the same state |
| HalfCheetahVel.ForwardReward | maml_rl/envs/mujoco/half_cheetah.py:110 | the velocity task term is never positive and is zero exactly at the goal velocity |
| HalfCheetahVel.ForwardRewardDecreasesAwayFromGoal | maml_rl/envs/mujoco/half_cheetah.py:110 | the task term strictly decreases as the velocity moves away from the goal on either side, and is symmetric about the goal |
| HalfCheetahVel.ForwardRewardUnitSlope | maml_rl/envs/mujoco/half_cheetah.py:110 | on either side of the goal, the task term falls by exactly as much as the velocity moves away from the goal |
| HalfCheetahVel.Step | maml_rl/envs/mujoco/half_cheetah.py:104-120 | the task state is unchanged and `done` and `truncated` are false. `reward_forward` is the velocity task term of the finite-difference velocity: at most 0, with equality exactly when the forward velocity is the goal. `reward_ctrl` is the negated control cost of the action. The reward is forward + ctrl <= forward, and the info carries the active task |
| HalfCheetahVel.StepRewardMaximalAtGoal | maml_rl/envs/mujoco/half_cheetah.py:109-114 | for a fixed action, no tick outcome earns more total reward than moving at the goal velocity. Only moving at the goal velocity earns as much |
| HalfCheetahVel.StepAfterResetTaskForgetsPreviousTask | maml_rl/envs/mujoco/half_cheetah.py:104-129 | once `reset_task(t)` succeeds, the next step's result depends on `t` and the physics alone, never on the earlier task |
| HalfCheetahVel.VelocityTasks | maml_rl/envs/mujoco/half_cheetah.py:123-124 | for accepted bounds, exactly `num_tasks` tasks, each with the single key `velocity`. Each velocity is the uniform draw of its unit draw, in `[low, high)` when `low < high` and `low` when the bounds meet |
| HalfCheetahVel.SampleTasks | maml_rl/envs/mujoco/half_cheetah.py:122-125 | sampling fails with an invalid-distribution error exactly when `high < low`, whatever the number of tasks. Otherwise it returns exactly `num_tasks` one-key `velocity` tasks, each the uniform draw of its unit draw, in `[low, high)` when `low < high` |
| HalfCheetahVel.SampledTasksAreAccepted | maml_rl/envs/mujoco/half_cheetah.py:122-129 | with `low < high`, sampling succeeds, every sampled task is accepted by `reset_task`, and the goal it sets lies in the environment's `[low, high)` |
| HalfCheetahDir.Make | maml_rl/envs/mujoco/half_cheetah.py:151-153 | the task is kept as given. The goal is its direction, or 1 when it names none |
| HalfCheetahDir.DefaultRunsForward | maml_rl/envs/mujoco/half_cheetah.py:151-153 | the default empty task commands the forward direction +1 |
| HalfCheetahDir.ResetTaskAsWritten | maml_rl/envs/mujoco/half_cheetah.py:179-181 | as written, the task is always replaced. The goal is replaced only when the task has a direction, and otherwise the call fails with the old goal kept |
| HalfCheetahDir.ResetTaskAsWrittenBreaksConsistency | maml_rl/envs/mujoco/half_cheetah.py:179-181 | after the code as written fails on `{}`, an environment that was running backward reports a task without a direction but is still rewarded for running backward |
| HalfCheetahDir.ResetTask | maml_rl/envs/mujoco/half_cheetah.py:179-181 | succeeds exactly when the task names a direction. It then replaces the task and sets the goal to it. Otherwise it fails with a missing-key error |
| HalfCheetahDir.ResetTaskAgreesOnSuccess | maml_rl/envs/mujoco/half_cheetah.py:179-181 | the corrected `reset_task` succeeds exactly when the code as written does, and then leaves the same state |
| HalfCheetahDir.ForwardReward | maml_rl/envs/mujoco/half_cheetah.py:162 | the direction task term is `v` for direction +1, `-v` for direction -1, and 0 for direction 0 |
| HalfCheetahDir.ForwardRewardSign | maml_rl/envs/mujoco/half_cheetah.py:162 | for a direction in {-1, +1} the term's absolute value is the speed `|v|`. It is positive exactly when the motion follows the commanded direction |
| HalfCheetahDir.ForwardRewardUnbounded | maml_rl/envs/mujoco/half_cheetah.py:162 | unlike the velocity variant, the direction term exceeds every bound for some velocity |
| HalfCheetahDir.Step | maml_rl/envs/mujoco/half_cheetah.py:156-172 | the task state is unchanged and `done` and `truncated` are false. `reward_forward` is the direction task term of the finite-difference velocity, so `reward_forward * dt` is the x displacement going forward and its negation going backward. `reward_ctrl` is the negated control cost of the action. The reward = forward + ctrl <= forward, and the info carries the active task |
| HalfCheetahDir.StepAfterResetTaskForgetsPreviousTask | maml_rl/envs/mujoco/half_cheetah.py:156-181 | once `reset_task(t)` succeeds, the next step depends on `t` and the physics alone |
| HalfCheetahDir.DirectionOf | maml_rl/envs/mujoco/half_cheetah.py:175 | a coin maps to `2b - 1`, which is a direction in {-1, +1}, and is +1 exactly for coin 1 |
| HalfCheetahDir.SampleTasks | maml_rl/envs/mujoco/half_cheetah.py:174-177 | exactly `num_tasks` tasks, each with the single key `direction`. Each direction is in {-1, +1}, and is +1 exactly when its coin is 1 |
| HalfCheetahDir.SampledTasksCommandADirection | maml_rl/envs/mujoco/half_cheetah.py:174-181 | every sampled task is accepted by `reset_task`. The environment then rewards speed in a direction in {-1, +1}: the task term's absolute value is `|v|` |
| Bandit.Full | maml_rl/envs/bandit.py:30 | `np.full((k,), x)` has length `k` and every entry `x` |
| Bandit.Make | maml_rl/envs/bandit.py:22-30 | the task is kept as given. The means are the task's `mean`, or `k` copies of 0.5 when it names none. Means and task agree (`Consistent`) |
| Bandit.DefaultMeansAreReady | maml_rl/envs/bandit.py:68-77 | without a task, every arm can be pulled: there is one valid probability per arm, and the Gaussian variant's default `std` of 1.0 is a valid deviation |
| Bandit.IsArm | maml_rl/envs/bandit.py:50 | the step's `action_space.contains(action)` holds exactly for the integers `0 .. k-1` |
| Bandit.ArmCount | maml_rl/envs/bandit.py:26 | the action space `Discrete(k)` has exactly `k` arms, `0 .. k-1` |
| Bandit.Reset | maml_rl/envs/bandit.py:46-47 | `reset` returns an observation in the zero observation space and leaves the task state unchanged |
| Bandit.ObservationSpaceIsZero | maml_rl/envs/bandit.py:27 | the declared observation space `Box(0, 0, (1,))` holds exactly the observation `[0.0]` |
| Bandit.Reward | maml_rl/envs/bandit.py:51-52 | a Bernoulli reward is 0 or 1, is 1 exactly when the unit draw is below the mean, and is certain for means 1 and 0. A Gaussian reward differs from the mean by `std` times the standard-normal draw, so it is the mean itself when `std` is 0. The random source rejects a Bernoulli mean outside [0, 1] and a negative `std` |
| Bandit.GaussianRewardSymmetric | maml_rl/envs/bandit.py:98-99 | with `std > 0`, the draws `z` and `-z` give rewards at equal distances on either side of the mean, and the reward exceeds the mean exactly when `z > 0` |
| Bandit.Step | maml_rl/envs/bandit.py:49-55 | an action outside `Discrete(k)` fails before any reward is drawn, and so does one past the end of the means. When the random source rejects the arm's mean or `std`, the step fails with that invalid-distribution error. A successful step leaves the task state unchanged, returns `done = true`, the zero observation and `{"task": active task}`, and pays the reward law of `means[action]` |
| Bandit.StepSucceedsExactlyOnArms | maml_rl/envs/bandit.py:50-52 | on an environment whose means suit its law, a step succeeds exactly for the `k` valid arms |
| Bandit.StepDependsOnlyOnChosenArm | maml_rl/envs/bandit.py:96-102 | two environments of the same variant whose pulled arm has the same mean succeed together and pay the same reward |
| Bandit.CertainBernoulliArms | maml_rl/envs/bandit.py:49-55 | with means `[1, 0]`, arm 0 always pays 1 and arm 1 always pays 0. Both end the episode with the observation `[0.0]` |
| Bandit.DeterministicGaussianArm | maml_rl/envs/bandit.py:96-102 | a Gaussian arm with mean 5 and `std` 0 pays exactly 5 |
| Bandit.ResetTaskAsWritten | maml_rl/envs/bandit.py:42-44 | as written, the task is always replaced. The means are replaced only when the task has a `mean`, and otherwise the call fails with the old means kept |
| Bandit.ResetTaskAsWrittenBreaksConsistency | maml_rl/envs/bandit.py:89-91 | after the code as written fails on `{}`, the environment keeps, after raising `KeyError`, the previous means `[0.9]` under a task that names none |
| Bandit.ResetTask | maml_rl/envs/bandit.py:42-44 | succeeds exactly when the task has a `mean`. It then replaces both task and means, keeping the variant and `k`. Otherwise it fails with a missing-key error |
| Bandit.ResetTaskAgreesOnSuccess | maml_rl/envs/bandit.py:89-91 | the corrected `reset_task` succeeds exactly when the code as written does, and then leaves the same state |
| Bandit.ResetTaskForgetsPreviousTask | maml_rl/envs/bandit.py:42-44 | the state after `reset_task(t)` is the same whatever the previous task was |
| Bandit.SampleTasks | maml_rl/envs/bandit.py:37-40 | exactly `num_tasks` tasks, each with the single key `mean`. Each `mean` is a row of draws of length `k` with every entry in [0, 1) |
| Bandit.SampledTasksAreReady | maml_rl/envs/bandit.py:84-91 | after `reset_task` with any sampled task, every arm can be pulled: the means are probabilities, one per arm |

## Findings

| source | as written | input that shows it | evidently intended | confidence | as-written member | corrected member |
|---|---|---|---|---|---|---|
| maml_rl/envs/mujoco/half_cheetah.py:127-129 | `self._task = task` runs before `task["velocity"]` | `reset_task({})` on an environment with goal 1.5: a `KeyError`, and afterwards the task is `{}` but the goal is still 1.5 | replace task and goal together or not at all | medium, not executed | HalfCheetahVel.ResetTaskAsWrittenBreaksConsistency | HalfCheetahVel.ResetTask |
| maml_rl/envs/mujoco/half_cheetah.py:179-181 | `self._task = task` runs before `task["direction"]` | `reset_task({})` on an environment with direction -1: a `KeyError`, and afterwards the task is `{}` but the goal is still -1 | replace task and goal together or not at all | medium, not executed | HalfCheetahDir.ResetTaskAsWrittenBreaksConsistency | HalfCheetahDir.ResetTask |
| maml_rl/envs/bandit.py:42-44 | `self._task = task` runs before `task["mean"]` | `reset_task({})` on a bandit with means `[0.9]`: a `KeyError`, and afterwards the task is `{}` but the means are still `[0.9]` | a task missing `mean` must not leave the previous means paired with the new task | medium, not executed | Bandit.ResetTaskAsWrittenBreaksConsistency | Bandit.ResetTask |

## Left out

- MuJoCo physics is not modelled: `do_simulation`, `frame_skip`, the derivation of `dt`, model loading, and the `qpos`/`qvel`/`get_body_com` readouts. They are inputs to `Step`.
- `HalfCheetahEnv.__init__` is not modelled: its observation-space and `MujocoEnv` setup is physics plumbing. Only the declared width 20 appears, in `Locomotion.ObservationWidth`.
- Locomotion `reset` (`reset_model`) is inherited from gymnasium and is not part of this model.
- Rendering is UI only: `viewer_setup`, `render`, `DEFAULT_CAMERA_CONFIG`.
- Seeding and the distributions are not modelled: `seed`, `seeding.np_random`, and the shapes of `uniform`, `binomial`, `normal` and `rand`. Draws are inputs carrying only their range guarantees.
- The `float32` casts and floating-point rounding are not modelled: rewards and observations are over `real`. NaN inputs are not modelled.
- `utils.EzPickle` registration is not modelled. Neither are the stored `forward_reward_weight` and `ctrl_cost_weight`, which no `step` reads, nor `reset_noise_scale`, which only the inherited reset reads, and that reset is left out.
- The shared mutable default task dictionaries need no model: the model's tasks are immutable values.
- The `Sampler` and `make_env` classes are not modelled. They are plumbing around `gym.make`, `env.reset(seed=...)` and `env.close()`, and `sample`/`sample_async` only raise `NotImplementedError`.
- A locomotion action of the wrong dimension is rejected by `do_simulation` before any reward is computed. The model does not check the action's length.
- `Discrete(k)`'s own validation of `k` is not modelled. Neither are non-integer actions: the model's actions are integers.
- HalfCheetahVel.Make: an `int` task (neither `float` nor a dictionary) fails in the Python code at `.get`. This case is not represented, because the constructor argument is either a float or a dictionary.
- A negative `num_tasks` makes numpy raise `ValueError` in every `sample_tasks` (`uniform`, `binomial` and `rand` all reject a negative size). The model's task count is a `nat`, so this case cannot be expressed.
- `HalfCheetahVelEnv.reset_task` with a bare float stores the float as the task and then raises `TypeError` at `task["velocity"]`. The model's `ResetTask` takes only task dictionaries, so this case is not represented.
- `Generator.uniform`'s `OverflowError` for an infinite width is not modelled, because reals are never infinite.

=== FILE: bandit.dfy ===
/**
 The single-step multi-armed bandits. A task is `{"mean": p}` with one mean
 per arm; pulling arm `a` draws a reward from the law bound to `p[a]` —
 Bernoulli(`p[a]`) or Normal(`p[a]`, `std`) — and always ends the episode.
 The observation is the constant one-element zero vector.
 */
module Bandit {
  import opened Tasks
  import opened Draws

  const MeanKey: string := "mean"

  /** The mean of every arm when the task names none. */
  const DefaultMean: real := 0.5

  /** The Gaussian variant's standard deviation when none is given. */
  const DefaultStd: real := 1.0

  /** The two reward laws; the Gaussian one fixes its deviation for all tasks. */
  datatype Kind = Bernoulli | Gaussian(std: real)

  /** The task-related state: the law, the number of arms, the active task
      and the means the rewards are drawn from. */
  datatype Env = Env(kind: Kind, k: nat, task: Task<seq<real>>, means: seq<real>)

  /** `np.full((k,), x)`. */
  function Full(k: nat, x: real): (s: seq<real>)
    ensures |s| == k
    ensures forall i :: 0 <= i < k ==> s[i] == x
  {
    seq(k, _ => x)
  }

  /** The means are the ones the active task names, or the construction
      default for a task that names none. */
  predicate Consistent(env: Env) {
    env.means == Get(env.task, MeanKey, Full(env.k, DefaultMean))
  }

  /** The means satisfy every demand a step will make of them: one per arm,
      and probabilities for the Bernoulli law. */
  predicate Ready(env: Env) {
    && |env.means| >= env.k
    && (env.kind.Bernoulli? ==> forall i :: 0 <= i < env.k ==> 0.0 <= env.means[i] <= 1.0)
    && (env.kind.Gaussian? ==> env.kind.std >= 0.0)
  }

  /** `__init__` of either variant: the means are read from the task with a
      default of `k` halves. */
  function Make(kind: Kind, k: nat, task: Task<seq<real>>): (env: Env)
    ensures env.kind == kind && env.k == k && env.task == task
    ensures Consistent(env)
    ensures MeanKey in task ==> env.means == task[MeanKey]
    ensures MeanKey !in task ==> |env.means| == k
    ensures MeanKey !in task ==> forall i :: 0 <= i < k ==> env.means[i] == 0.5
  {
    Env(kind, k, task, Get(task, MeanKey, Full(k, DefaultMean)))
  }

  /** Without a task the environment is ready to step: the halves are valid
      probabilities, one per arm, and the Gaussian variant's default
      deviation is a valid one. */
  lemma DefaultMeansAreReady(kind: Kind, k: nat)
    requires kind.Gaussian? ==> kind.std >= 0.0
    ensures Ready(Make(kind, k, map[]))
    ensures Ready(Make(Gaussian(DefaultStd), k, map[]))
  {
  }

  /** The action-space membership the step asserts. */
  predicate IsArm(k: nat, action: int) {
    0 <= action < k
  }

  /** The arms of the action space `Discrete(k)`. */
  function Arms(k: nat): set<int> {
    if k == 0 then {} else Arms(k - 1) + {k - 1}
  }

  /** The action space has exactly `k` arms. */
  lemma {:induction false} ArmCount(k: nat)
    ensures |Arms(k)| == k
    ensures forall a :: a in Arms(k) <==> IsArm(k, a)
  {
    if k > 0 {
      ArmCount(k - 1);
      assert k - 1 !in Arms(k - 1);
    }
  }

  /** The declared observation space: one component, bounded by zero on both
      sides. */
  predicate InObservationSpace(o: seq<real>) {
    |o| == 1 && 0.0 <= o[0] <= 0.0
  }

  /** The only observation there is. */
  const ZeroObservation: seq<real> := [0.0]

  /** `reset`: the zero observation, with the task state left as it was. */
  function Reset(env: Env): (r: (Env, seq<real>))
    ensures r.0 == env
    ensures InObservationSpace(r.1)
  {
    (env, ZeroObservation)
  }

  /** The observation space holds nothing but the zero observation. */
  lemma ObservationSpaceIsZero(o: seq<real>)
    ensures InObservationSpace(o) <==> o == ZeroObservation
  {
  }

  /** The reward for an arm with the given mean. A Bernoulli reward is 1
      exactly when the unit draw falls below the mean; a Gaussian reward is
      the mean plus `std` times the standard-normal draw. The random source
      rejects a mean outside [0, 1] and a negative deviation. */
  function Reward(kind: Kind, mean: real, draw: real): (r: Result<real>)
    requires kind.Bernoulli? ==> IsUnit(draw)
    ensures r.Err? ==> r.error == InvalidDistribution
    ensures kind.Bernoulli? ==> (r.Ok? <==> 0.0 <= mean <= 1.0)
    ensures kind.Bernoulli? && r.Ok? ==> r.value == 0.0 || r.value == 1.0
    ensures kind.Bernoulli? && r.Ok? ==> (r.value == 1.0 <==> draw < mean)
    ensures kind.Bernoulli? && mean == 1.0 ==> r == Ok(1.0)
    ensures kind.Bernoulli? && mean == 0.0 ==> r == Ok(0.0)
    ensures kind.Gaussian? ==> (r.Ok? <==> kind.std >= 0.0)
    ensures kind.Gaussian? && r.Ok? ==> r.value - mean == kind.std * draw
    ensures kind.Gaussian? && kind.std == 0.0 ==> r == Ok(mean)
  {
    match kind
    case Bernoulli =>
      if 0.0 <= mean <= 1.0 then Ok(if draw < mean then 1.0 else 0.0)
      else Err(InvalidDistribution)
    case Gaussian(std) =>
      if std >= 0.0 then Ok(mean + std * draw) else Err(InvalidDistribution)
  }

  /** With a positive deviation the Gaussian reward is spread symmetrically
      about the mean: opposite draws land at equal distances on either
      side, and the reward exceeds the mean exactly for a positive draw. */
  lemma GaussianRewardSymmetric(mean: real, std: real, z: real)
    requires std > 0.0
    ensures Reward(Gaussian(std), mean, z).Ok? && Reward(Gaussian(std), mean, -z).Ok?
    ensures Reward(Gaussian(std), mean, z).value - mean
         == mean - Reward(Gaussian(std), mean, -z).value
    ensures Reward(Gaussian(std), mean, z).value > mean <==> z > 0.0
  {
  }

  /** The `info` record of a bandit step. */
  datatype StepInfo = StepInfo(task: Task<seq<real>>)

  /** The four-tuple a bandit `step` returns. */
  datatype StepResult = StepResult(observation: seq<real>, reward: real, done: bool, info: StepInfo)

  /** `step(action)`: the action-space assertion comes first, then the means
      are indexed, then the reward is drawn. The task state is left as it
      was. */
  function Step(env: Env, action: int, draw: real): (r: Result<(Env, StepResult)>)
    requires env.kind.Bernoulli? ==> IsUnit(draw)
    ensures !IsArm(env.k, action) ==> r == Err(InvalidAction(action))
    ensures IsArm(env.k, action) && action >= |env.means| ==> r == Err(IndexOutOfRange(action))
    ensures IsArm(env.k, action) && action < |env.means|
        ==> (r.Ok? <==> Reward(env.kind, env.means[action], draw).Ok?)
    ensures IsArm(env.k, action) && action < |env.means|
            && Reward(env.kind, env.means[action], draw).Err?
        ==> r == Err(InvalidDistribution)
    ensures r.Ok? ==> r.value.0 == env
    ensures r.Ok? ==> r.value.1.done
    ensures r.Ok? ==> r.value.1.info.task == env.task
    ensures r.Ok? ==> InObservationSpace(r.value.1.observation)
    ensures r.Ok? ==> IsArm(env.k, action) && action < |env.means|
    ensures r.Ok? ==> Reward(env.kind, env.means[action], draw) == Ok(r.value.1.reward)
  {
    if !IsArm(env.k, action) then Err(InvalidAction(action))
    else if action >= |env.means| then Err(IndexOutOfRange(action))
    else match Reward(env.kind, env.means[action], draw)
      case Ok(reward) => Ok((env, StepResult(ZeroObservation, reward, true, StepInfo(env.task))))
      case Err(e) => Err(e)
  }

  /** On a ready environment a step fails exactly for an action outside the
      action space. */
  lemma StepSucceedsExactlyOnArms(env: Env, action: int, draw: real)
    requires env.kind.Bernoulli? ==> IsUnit(draw)
    requires Ready(env)
    ensures Step(env, action, draw).Ok? <==> IsArm(env.k, action)
  {
  }

  /** The reward depends on the active task only through the mean of the
      pulled arm. */
  lemma StepDependsOnlyOnChosenArm(e1: Env, e2: Env, action: int, draw: real)
    requires e1.kind == e2.kind && e1.k == e2.k
    requires e1.kind.Bernoulli? ==> IsUnit(draw)
    requires IsArm(e1.k, action) && action < |e1.means| && action < |e2.means|
    requires e1.means[action] == e2.means[action]
    ensures Step(e1, action, draw).Ok? <==> Step(e2, action, draw).Ok?
    ensures Step(e1, action, draw).Ok?
        ==> Step(e1, action, draw).value.1.reward == Step(e2, action, draw).value.1.reward
  {
  }

  /** A Bernoulli bandit with means [1, 0] always pays 1 on arm 0 and 0 on
      arm 1, ending the episode with the zero observation. */
  lemma CertainBernoulliArms(draw: real)
    requires IsUnit(draw)
    ensures var env := Make(Bernoulli, 2, map[MeanKey := [1.0, 0.0]]);
            && Step(env, 0, draw).Ok? && Step(env, 0, draw).value.1.reward == 1.0
            && Step(env, 1, draw).Ok? && Step(env, 1, draw).value.1.reward == 0.0
            && Step(env, 0, draw).value.1.done && Step(env, 1, draw).value.1.done
            && Step(env, 0, draw).value.1.observation == [0.0]
            && Step(env, 1, draw).value.1.observation == [0.0]
  {
  }

  /** A Gaussian bandit with a zero deviation pays its mean exactly. */
  lemma DeterministicGaussianArm(draw: real)
    ensures var env := Make(Gaussian(0.0), 1, map[MeanKey := [5.0]]);
            Step(env, 0, draw).Ok? && Step(env, 0, draw).value.1.reward == 5.0
  {
  }

  /** `reset_task` as written: the task is stored before its means are read,
      so a task without means leaves the new task paired with the old means. */
  function ResetTaskAsWritten(env: Env, task: Task<seq<real>>): (r: (Env, Outcome))
    ensures r.0.task == task && r.0.kind == env.kind && r.0.k == env.k
    ensures r.1.Pass? <==> MeanKey in task
    ensures r.1.Pass? ==> r.0.means == task[MeanKey]
    ensures r.1.Fail? ==> r.0.means == env.means && r.1.error == MissingKey(MeanKey)
  {
    var stored := env.(task := task);
    match Lookup(task, MeanKey)
    case Ok(means) => (stored.(means := means), Pass)
    case Err(e) => (stored, Fail(e))
  }

  /** A failing `reset_task` as written keeps, after raising `KeyError`, the
      previous means under a task that names none. */
  lemma ResetTaskAsWrittenBreaksConsistency()
    ensures var env := Make(Bernoulli, 1, map[MeanKey := [0.9]]);
            var r := ResetTaskAsWritten(env, map[]);
            Consistent(env) && r.1.Fail? && !Consistent(r.0) && r.0.means == [0.9]
  {
    var env := Make(Bernoulli, 1, map[MeanKey := [0.9]]);
    assert Full(1, DefaultMean)[0] == 0.5;
  }

  /** `reset_task` with the lookup done first: task and means are replaced
      together, and a task without means is an error that changes nothing. */
  function ResetTask(env: Env, task: Task<seq<real>>): (r: Result<Env>)
    ensures r.Ok? <==> MeanKey in task
    ensures r.Err? ==> r.error == MissingKey(MeanKey)
    ensures r.Ok? ==> r.value.task == task && r.value.means == task[MeanKey]
    ensures r.Ok? ==> r.value.kind == env.kind && r.value.k == env.k
    ensures r.Ok? ==> Consistent(r.value)
  {
    match Lookup(task, MeanKey)
    case Ok(means) => Ok(env.(task := task, means := means))
    case Err(e) => Err(e)
  }

  /** Whenever the corrected `reset_task` succeeds it agrees with the code as
      written. */
  lemma ResetTaskAgreesOnSuccess(env: Env, task: Task<seq<real>>)
    ensures ResetTask(env, task).Ok? <==> ResetTaskAsWritten(env, task).1.Pass?
    ensures ResetTask(env, task).Ok? ==> ResetTask(env, task).value == ResetTaskAsWritten(env, task).0
  {
  }

  /** The state after `reset_task(t)` is determined by the variant and `t`
      alone, so nothing of the previous task survives into later steps. */
  lemma ResetTaskForgetsPreviousTask(e1: Env, e2: Env, task: Task<seq<real>>)
    requires e1.kind == e2.kind && e1.k == e2.k
    requires MeanKey in task
    ensures ResetTask(e1, task) == ResetTask(e2, task)
  {
  }

  /** `sample_tasks(num_tasks)`: a `num_tasks` by `k` matrix of unit draws,
      one row of means per task. */
  function SampleTasks(numTasks: nat, k: nat, draws: seq<seq<real>>): (tasks: seq<Task<seq<real>>>)
    requires |draws| == numTasks
    requires forall i :: 0 <= i < |draws| ==> |draws[i]| == k
    requires forall i, j :: 0 <= i < |draws| && 0 <= j < |draws[i]| ==> IsUnit(draws[i][j])
    ensures |tasks| == numTasks
    ensures forall i :: 0 <= i < numTasks ==> tasks[i].Keys == {MeanKey}
    ensures forall i :: 0 <= i < numTasks ==> tasks[i][MeanKey] == draws[i]
    ensures forall i :: 0 <= i < numTasks ==> |tasks[i][MeanKey]| == k
    ensures forall i, j :: 0 <= i < numTasks && 0 <= j < k ==> IsUnit(tasks[i][MeanKey][j])
    decreases numTasks
  {
    if numTasks == 0 then []
    else [map[MeanKey := draws[0]]] + SampleTasks(numTasks - 1, k, draws[1..])
  }

  /** After `reset_task` with a sampled task every arm can be pulled: the
      means are probabilities, one per arm. */
  lemma SampledTasksAreReady(env: Env, draws: seq<seq<real>>, i: nat)
    requires forall r :: 0 <= r < |draws| ==> |draws[r]| == env.k
    requires forall r, j :: 0 <= r < |draws| && 0 <= j < |draws[r]| ==> IsUnit(draws[r][j])
    requires env.kind.Gaussian? ==> env.kind.std >= 0.0
    requires i < |draws|
    ensures var r := ResetTask(env, SampleTasks(|draws|, env.k, draws)[i]);
            r.Ok? && Ready(r.value)
  {
  }
}

=== FILE: draws.dfy ===
/**
 The environment-owned random source, seen only through its draws. Each
 draw is an input carrying the range guarantee of the generator that
 produced it; the distributions themselves are not modelled.
 */
module Draws {
  import opened Tasks

  /** A unit draw, `random()`: a value in [0, 1). */
  predicate IsUnit(u: real) {
    0.0 <= u < 1.0
  }

  /** A coin, `binomial(1, 0.5)`: 0 or 1. */
  predicate IsBit(b: int) {
    b == 0 || b == 1
  }

  /** A non-negative width scaled by a unit draw stays within the width. */
  function Scale(w: real, u: real): (r: real)
    requires w >= 0.0 && IsUnit(u)
    ensures 0.0 <= r <= w
    ensures w > 0.0 ==> r < w
  {
    assert w > 0.0 ==> w * (1.0 - u) > 0.0;
    w * u
  }

  /** `uniform(low, high)` from a unit draw: `low + (high - low) * u`. The
      generator demands a non-negative width `high - low` and rejects
      reversed bounds. */
  function Uniform(low: real, high: real, u: real): (r: Result<real>)
    requires IsUnit(u)
    ensures r.Ok? <==> low <= high
    ensures r.Err? ==> r.error == InvalidDistribution
    ensures r.Ok? && low < high ==> low <= r.value < high
    ensures r.Ok? && low == high ==> r.value == low
  {
    if low <= high then Ok(low + Scale(high - low, u)) else Err(InvalidDistribution)
  }
}

=== FILE: half_cheetah_dir.dfy ===
/**
 The half-cheetah with a target direction: the task is `{"direction": d}`
 with `d` in {-1, +1}, the forward reward is `d * v` for the finite-difference
 forward velocity `v`, and directions are drawn by a fair coin.
 */
module HalfCheetahDir {
  import opened Tasks
  import opened Draws
  import opened Locomotion

  const DirectionKey: string := "direction"

  /** The goal a task without a direction gives at construction. */
  const MissingDirection: real := 1.0

  /** The two directions a sampled task can command. */
  predicate IsDirection(d: real) {
    d == 1.0 || d == -1.0
  }

  /** The task-related state of the environment. */
  datatype Env = Env(task: Task<real>, goalDir: real)

  /** The goal is the one the active task names, or the construction default
      for a task that names none. */
  predicate Consistent(env: Env) {
    env.goalDir == Get(env.task, DirectionKey, MissingDirection)
  }

  /** `__init__`: the goal is read from the task with a default of forward. */
  function Make(task: Task<real>): (env: Env)
    ensures env.task == task
    ensures Consistent(env)
    ensures DirectionKey in task ==> env.goalDir == task[DirectionKey]
    ensures DirectionKey !in task ==> env.goalDir == 1.0
  {
    Env(task, Get(task, DirectionKey, MissingDirection))
  }

  /** The environment built with the default empty task runs forward. */
  lemma DefaultRunsForward()
    ensures Make(map[]).goalDir == 1.0 && IsDirection(Make(map[]).goalDir)
  {
  }

  /** `reset_task` as written: the task is stored before its direction is
      read, so a task without one leaves the new task paired with the old
      goal. */
  function ResetTaskAsWritten(env: Env, task: Task<real>): (r: (Env, Outcome))
    ensures r.0.task == task
    ensures r.1.Pass? <==> DirectionKey in task
    ensures r.1.Pass? ==> r.0.goalDir == task[DirectionKey]
    ensures r.1.Fail? ==> r.0.goalDir == env.goalDir && r.1.error == MissingKey(DirectionKey)
  {
    var stored := env.(task := task);
    match Lookup(task, DirectionKey)
    case Ok(goal) => (stored.(goalDir := goal), Pass)
    case Err(e) => (stored, Fail(e))
  }

  /** A failing `reset_task` as written leaves an environment that reports
      a task without a direction yet is rewarded for running backward. */
  lemma ResetTaskAsWrittenBreaksConsistency()
    ensures var env := Make(map[DirectionKey := -1.0]);
            var r := ResetTaskAsWritten(env, map[]);
            Consistent(env) && r.1.Fail? && !Consistent(r.0)
  {
  }

  /** `reset_task` with the lookup done first: the task and goal are replaced
      together, and a task without a direction is an error that changes
      nothing. */
  function ResetTask(env: Env, task: Task<real>): (r: Result<Env>)
    ensures r.Ok? <==> DirectionKey in task
    ensures r.Err? ==> r.error == MissingKey(DirectionKey)
    ensures r.Ok? ==> r.value.task == task && r.value.goalDir == task[DirectionKey]
    ensures r.Ok? ==> Consistent(r.value)
  {
    match Lookup(task, DirectionKey)
    case Ok(goal) => Ok(Env(task, goal))
    case Err(e) => Err(e)
  }

  /** Whenever the corrected `reset_task` succeeds it agrees with the code as
      written. */
  lemma ResetTaskAgreesOnSuccess(env: Env, task: Task<real>)
    ensures ResetTask(env, task).Ok? <==> ResetTaskAsWritten(env, task).1.Pass?
    ensures ResetTask(env, task).Ok? ==> ResetTask(env, task).value == ResetTaskAsWritten(env, task).0
  {
  }

  /** The task term `d * v`: the velocity itself going forward, its negation
      going backward, so its size is the speed for either direction. */
  function ForwardReward(goalDir: real, v: real): (r: real)
    ensures goalDir == 1.0 ==> r == v
    ensures goalDir == -1.0 ==> r == -v
    ensures goalDir == 0.0 ==> r == 0.0
  {
    goalDir * v
  }

  /** For a commanded direction the reward has the speed as its size and is
      positive exactly when the cheetah moves in the commanded direction. */
  lemma ForwardRewardSign(goalDir: real, v: real)
    requires IsDirection(goalDir)
    ensures Abs(ForwardReward(goalDir, v)) == Abs(v)
    ensures ForwardReward(goalDir, v) > 0.0 <==> (goalDir > 0.0 && v > 0.0) || (goalDir < 0.0 && v < 0.0)
  {
  }

  /** Unlike the velocity variant, the direction reward has no ceiling. */
  lemma ForwardRewardUnbounded(goalDir: real, bound: real)
    requires IsDirection(goalDir)
    ensures exists v :: ForwardReward(goalDir, v) > bound
  {
    var speed := Abs(bound) + 1.0;
    if goalDir == 1.0 {
      assert ForwardReward(goalDir, speed) > bound;
    } else {
      assert ForwardReward(goalDir, -speed) > bound;
    }
  }

  /** `step`, with the x position before the tick, the simulator state after
      it and the timestep as inputs. The task state is left as it was. */
  function Step(env: Env, action: seq<real>, xBefore: real, after: SimState, dt: real)
    : (r: (Env, StepResult))
    requires dt > 0.0 && WellFormed(after)
    ensures r.0 == env
    ensures !r.1.done && !r.1.truncated
    ensures r.1.info.task == env.task
    ensures r.1.info.rewardForward
         == ForwardReward(env.goalDir, ForwardVelocity(xBefore, XPosition(after), dt))
    ensures env.goalDir == 1.0 ==> r.1.info.rewardForward * dt == XPosition(after) - xBefore
    ensures env.goalDir == -1.0 ==> r.1.info.rewardForward * dt == xBefore - XPosition(after)
    ensures r.1.info.rewardCtrl == -ControlCost(action)
    ensures r.1.info.rewardCtrl <= 0.0
    ensures r.1.reward == r.1.info.rewardForward + r.1.info.rewardCtrl
    ensures r.1.reward <= r.1.info.rewardForward
    ensures r.1.observation == Observation(after)
  {
    var v := ForwardVelocity(xBefore, XPosition(after), dt);
    (env, FinishStep(ForwardReward(env.goalDir, v), action, after, env.task))
  }

  /** After `reset_task(t)` a step depends on `t` alone. */
  lemma StepAfterResetTaskForgetsPreviousTask(e1: Env, e2: Env, task: Task<real>,
                                              action: seq<real>, xBefore: real,
                                              after: SimState, dt: real)
    requires DirectionKey in task
    requires dt > 0.0 && WellFormed(after)
    ensures ResetTask(e1, task).Ok? && ResetTask(e2, task).Ok?
    ensures Step(ResetTask(e1, task).value, action, xBefore, after, dt)
         == Step(ResetTask(e2, task).value, action, xBefore, after, dt)
  {
  }

  /** The direction a coin maps to, `2 * b - 1`. */
  function DirectionOf(b: int): (d: real)
    requires IsBit(b)
    ensures IsDirection(d)
    ensures d == 1.0 <==> b == 1
  {
    (2 * b - 1) as real
  }

  /** `sample_tasks(num_tasks)`: one coin per task, each task naming only its
      direction. */
  function SampleTasks(numTasks: nat, coins: seq<int>): (tasks: seq<Task<real>>)
    requires |coins| == numTasks
    requires forall i :: 0 <= i < |coins| ==> IsBit(coins[i])
    ensures |tasks| == numTasks
    ensures forall i :: 0 <= i < numTasks ==> tasks[i].Keys == {DirectionKey}
    ensures forall i :: 0 <= i < numTasks ==> IsDirection(tasks[i][DirectionKey])
    ensures forall i :: 0 <= i < numTasks ==> (tasks[i][DirectionKey] == 1.0 <==> coins[i] == 1)
    decreases numTasks
  {
    if numTasks == 0 then []
    else [map[DirectionKey := DirectionOf(coins[0])]] + SampleTasks(numTasks - 1, coins[1..])
  }

  /** Every sampled task is accepted by `reset_task`, and the environment then
      rewards the speed in the sampled direction. */
  lemma SampledTasksCommandADirection(env: Env, coins: seq<int>, i: nat, v: real)
    requires forall j :: 0 <= j < |coins| ==> IsBit(coins[j])
    requires i < |coins|
    ensures var r := ResetTask(env, SampleTasks(|coins|, coins)[i]);
            r.Ok? && IsDirection(r.value.goalDir)
            && Abs(ForwardReward(r.value.goalDir, v)) == Abs(v)
  {
  }
}

=== FILE: half_cheetah_vel.dfy ===
/**
 The half-cheetah with a target velocity: the task is `{"velocity": g}`, the
 forward reward is `-|v - g|` for the finite-difference forward velocity `v`,
 and target velocities are drawn uniformly from `[low, high)`.
 */
module HalfCheetahVel {
  import opened Tasks
  import opened Draws
  import opened Locomotion

  const VelocityKey: string := "velocity"

  /** Constructor defaults: the task `{"velocity": 1.0}` and the range [0, 2). */
  const DefaultVelocity: real := 1.0
  const DefaultLow: real := 0.0
  const DefaultHigh: real := 2.0

  /** The goal a dictionary task without a velocity gives at construction. */
  const MissingVelocity: real := 0.0

  /** The constructor accepts a bare float or a task dictionary. */
  datatype TaskArg = FloatTask(velocity: real) | DictTask(task: Task<real>)

  /** The task-related state of the environment. */
  datatype Env = Env(low: real, high: real, task: Task<real>, goalVel: real)

  /** The goal is the one the active task names, or the construction default
      for a task that names none. */
  predicate Consistent(env: Env) {
    env.goalVel == Get(env.task, VelocityKey, MissingVelocity)
  }

  /** `__init__`: a float becomes a one-key task; the goal is read with a
      default. */
  function Make(arg: TaskArg, low: real, high: real): (env: Env)
    ensures env.low == low && env.high == high
    ensures Consistent(env)
    ensures arg.FloatTask? ==> env.task == map[VelocityKey := arg.velocity]
    ensures arg.FloatTask? ==> env.goalVel == arg.velocity
    ensures arg.DictTask? ==> env.task == arg.task
    ensures arg.DictTask? && VelocityKey !in arg.task ==> env.goalVel == 0.0
  {
    var task := match arg
      case FloatTask(v) => map[VelocityKey := v]
      case DictTask(t) => t;
    Env(low, high, task, Get(task, VelocityKey, MissingVelocity))
  }

  /** The environment built with every constructor argument left at its
      default. */
  function MakeDefault(): (env: Env)
    ensures env.low == 0.0 && env.high == 2.0
    ensures env.task == map["velocity" := 1.0] && env.goalVel == 1.0
  {
    Make(DictTask(map[VelocityKey := DefaultVelocity]), DefaultLow, DefaultHigh)
  }

  /** `reset_task` as written: the task is stored before its velocity is read,
      so a task without one leaves the new task paired with the old goal. */
  function ResetTaskAsWritten(env: Env, task: Task<real>): (r: (Env, Outcome))
    ensures r.0.task == task && r.0.low == env.low && r.0.high == env.high
    ensures r.1.Pass? <==> VelocityKey in task
    ensures r.1.Pass? ==> r.0.goalVel == task[VelocityKey]
    ensures r.1.Fail? ==> r.0.goalVel == env.goalVel && r.1.error == MissingKey(VelocityKey)
  {
    var stored := env.(task := task);
    match Lookup(task, VelocityKey)
    case Ok(goal) => (stored.(goalVel := goal), Pass)
    case Err(e) => (stored, Fail(e))
  }

  /** A failing `reset_task` as written leaves an environment whose reported
      task and rewarded goal disagree. */
  lemma ResetTaskAsWrittenBreaksConsistency()
    ensures var env := Make(FloatTask(1.5), DefaultLow, DefaultHigh);
            var r := ResetTaskAsWritten(env, map[]);
            Consistent(env) && r.1.Fail? && !Consistent(r.0)
  {
  }

  /** `reset_task` with the lookup done first: the task and goal are replaced
      together, and a task without a velocity is an error that changes
      nothing. */
  function ResetTask(env: Env, task: Task<real>): (r: Result<Env>)
    ensures r.Ok? <==> VelocityKey in task
    ensures r.Err? ==> r.error == MissingKey(VelocityKey)
    ensures r.Ok? ==> r.value.task == task && r.value.goalVel == task[VelocityKey]
    ensures r.Ok? ==> r.value.low == env.low && r.value.high == env.high
    ensures r.Ok? ==> Consistent(r.value)
  {
    match Lookup(task, VelocityKey)
    case Ok(goal) => Ok(env.(task := task, goalVel := goal))
    case Err(e) => Err(e)
  }

  /** Whenever the corrected `reset_task` succeeds it agrees with the code as
      written. */
  lemma ResetTaskAgreesOnSuccess(env: Env, task: Task<real>)
    ensures ResetTask(env, task).Ok? <==> ResetTaskAsWritten(env, task).1.Pass?
    ensures ResetTask(env, task).Ok? ==> ResetTask(env, task).value == ResetTaskAsWritten(env, task).0
  {
  }

  /** The task term `-|v - goal|`: never positive, and zero exactly at the
      goal. */
  function ForwardReward(goalVel: real, v: real): (r: real)
    ensures r <= 0.0
    ensures r == 0.0 <==> v == goalVel
  {
    -Abs(v - goalVel)
  }

  /** The task term falls strictly as the velocity moves away from the goal,
      on either side, and is symmetric about the goal. */
  lemma ForwardRewardDecreasesAwayFromGoal(goalVel: real, v1: real, v2: real)
    ensures goalVel <= v1 < v2 ==> ForwardReward(goalVel, v1) > ForwardReward(goalVel, v2)
    ensures v2 < v1 <= goalVel ==> ForwardReward(goalVel, v1) > ForwardReward(goalVel, v2)
    ensures v1 - goalVel == goalVel - v2 ==> ForwardReward(goalVel, v1) == ForwardReward(goalVel, v2)
  {
  }

  /** The penalty grows at unit rate with the distance from the goal: one
      unit of velocity further away costs one unit of reward, on either
      side. */
  lemma ForwardRewardUnitSlope(goalVel: real, v1: real, v2: real)
    ensures goalVel <= v1 <= v2 ==> ForwardReward(goalVel, v1) - ForwardReward(goalVel, v2) == v2 - v1
    ensures v2 <= v1 <= goalVel ==> ForwardReward(goalVel, v1) - ForwardReward(goalVel, v2) == v1 - v2
  {
  }

  /** `step`, with the x position before the tick, the simulator state after
      it and the timestep as inputs. The task state is left as it was. */
  function Step(env: Env, action: seq<real>, xBefore: real, after: SimState, dt: real)
    : (r: (Env, StepResult))
    requires dt > 0.0 && WellFormed(after)
    ensures r.0 == env
    ensures !r.1.done && !r.1.truncated
    ensures r.1.info.task == env.task
    ensures r.1.info.rewardForward
         == ForwardReward(env.goalVel, ForwardVelocity(xBefore, XPosition(after), dt))
    ensures r.1.info.rewardForward <= 0.0
    ensures r.1.info.rewardForward == 0.0
        <==> ForwardVelocity(xBefore, XPosition(after), dt) == env.goalVel
    ensures r.1.info.rewardCtrl == -ControlCost(action)
    ensures r.1.info.rewardCtrl <= 0.0
    ensures r.1.reward == r.1.info.rewardForward + r.1.info.rewardCtrl
    ensures r.1.reward <= r.1.info.rewardForward
    ensures r.1.observation == Observation(after)
  {
    var v := ForwardVelocity(xBefore, XPosition(after), dt);
    (env, FinishStep(ForwardReward(env.goalVel, v), action, after, env.task))
  }

  /** For a fixed action, no outcome of a tick earns more than moving at the
      goal velocity, and only moving at the goal velocity earns as much. */
  lemma StepRewardMaximalAtGoal(env: Env, action: seq<real>, xBefore: real,
                                atGoal: SimState, other: SimState, dt: real)
    requires dt > 0.0 && WellFormed(atGoal) && WellFormed(other)
    requires ForwardVelocity(xBefore, XPosition(atGoal), dt) == env.goalVel
    ensures Step(env, action, xBefore, atGoal, dt).1.reward
         >= Step(env, action, xBefore, other, dt).1.reward
    ensures Step(env, action, xBefore, atGoal, dt).1.reward
         == Step(env, action, xBefore, other, dt).1.reward
        <==> ForwardVelocity(xBefore, XPosition(other), dt) == env.goalVel
  {
  }

  /** After `reset_task(t)` a step depends on `t` alone: two environments with
      any earlier tasks step identically once both are given `t`. */
  lemma StepAfterResetTaskForgetsPreviousTask(e1: Env, e2: Env, task: Task<real>,
                                              action: seq<real>, xBefore: real,
                                              after: SimState, dt: real)
    requires VelocityKey in task
    requires dt > 0.0 && WellFormed(after)
    ensures ResetTask(e1, task).Ok? && ResetTask(e2, task).Ok?
    ensures Step(ResetTask(e1, task).value, action, xBefore, after, dt).1
         == Step(ResetTask(e2, task).value, action, xBefore, after, dt).1
  {
  }

  /** One task per unit draw, each naming only its velocity, for bounds the
      generator accepts. */
  function VelocityTasks(numTasks: nat, low: real, high: real, draws: seq<real>)
    : (tasks: seq<Task<real>>)
    requires low <= high
    requires |draws| == numTasks
    requires forall i :: 0 <= i < |draws| ==> IsUnit(draws[i])
    ensures |tasks| == numTasks
    ensures forall i :: 0 <= i < numTasks ==> tasks[i].Keys == {VelocityKey}
    ensures forall i :: 0 <= i < numTasks ==> Uniform(low, high, draws[i]) == Ok(tasks[i][VelocityKey])
    ensures low < high ==> forall i :: 0 <= i < numTasks ==> low <= tasks[i][VelocityKey] < high
    ensures low == high ==> forall i :: 0 <= i < numTasks ==> tasks[i][VelocityKey] == low
    decreases numTasks
  {
    if numTasks == 0 then []
    else [map[VelocityKey := Uniform(low, high, draws[0]).value]]
         + VelocityTasks(numTasks - 1, low, high, draws[1..])
  }

  /** `sample_tasks(num_tasks)`: one uniform draw over `[low, high)` per task.
      The generator refuses reversed bounds before drawing anything, whatever
      the number of tasks. */
  function SampleTasks(numTasks: nat, low: real, high: real, draws: seq<real>)
    : (r: Result<seq<Task<real>>>)
    requires |draws| == numTasks
    requires forall i :: 0 <= i < |draws| ==> IsUnit(draws[i])
    ensures r.Ok? <==> low <= high
    ensures r.Err? ==> r.error == InvalidDistribution
    ensures r.Ok? ==> |r.value| == numTasks
    ensures r.Ok? ==> forall i :: 0 <= i < numTasks ==> r.value[i].Keys == {VelocityKey}
    ensures r.Ok? ==> forall i :: 0 <= i < numTasks ==> Uniform(low, high, draws[i]) == Ok(r.value[i][VelocityKey])
    ensures low < high ==> forall i :: 0 <= i < numTasks ==> low <= r.value[i][VelocityKey] < high
  {
    if high < low then Err(InvalidDistribution) else Ok(VelocityTasks(numTasks, low, high, draws))
  }

  /** Every sampled task is accepted by `reset_task`, and the goal it sets
      lies in the environment's range. */
  lemma SampledTasksAreAccepted(env: Env, draws: seq<real>, i: nat)
    requires forall j :: 0 <= j < |draws| ==> IsUnit(draws[j])
    requires i < |draws| && env.low < env.high
    ensures var tasks := SampleTasks(|draws|, env.low, env.high, draws);
            tasks.Ok? && ResetTask(env, tasks.value[i]).Ok?
            && env.low <= ResetTask(env, tasks.value[i]).value.goalVel < env.high
  {
  }
}

=== FILE: locomotion.dfy ===
/**
 The half-cheetah scaffolding shared by the velocity and direction variants:
 the physics readings a step consumes, the observation layout, the control
 cost, the finite-difference forward velocity, and the common tail of `step`
 that turns a task-specific forward reward into the returned tuple.

 The physics engine is not modelled: the x position before the tick, the
 generalized coordinates after it and the timestep `dt` are inputs.
 */
module Locomotion {
  import opened Tasks

  /** The simulator readings after one tick: generalized positions `qpos`
      (x position first), generalized velocities `qvel`, and the centre of
      mass of the torso body. */
  datatype SimState = SimState(qpos: seq<real>, qvel: seq<real>, torsoCom: seq<real>)

  /** What the engine guarantees: an x coordinate exists and a centre of mass
      is a 3-vector. */
  predicate WellFormed(s: SimState) {
    |s.qpos| >= 1 && |s.torsoCom| == 3
  }

  /** The x position read before and after a tick. */
  function XPosition(s: SimState): real
    requires WellFormed(s)
  {
    s.qpos[0]
  }

  /** `abs` on reals. */
  function Abs(x: real): (r: real)
    ensures r >= 0.0
    ensures r == x || r == -x
  {
    if x < 0.0 then -x else x
  }

  /** Width of the declared observation space. */
  const ObservationWidth: nat := 20

  /** The control-cost coefficient `0.5 * 1e-1` written into both `step`s. */
  const CtrlCostCoefficient: real := 0.05

  /** The observation: every position but the x coordinate, then all
      velocities, then the torso's centre of mass. */
  function Observation(s: SimState): (obs: seq<real>)
    requires WellFormed(s)
    ensures |obs| == |s.qpos| - 1 + |s.qvel| + 3
    ensures forall i :: 0 <= i < |s.qpos| - 1 ==> obs[i] == s.qpos[i + 1]
    ensures forall j :: 0 <= j < |s.qvel| ==> obs[|s.qpos| - 1 + j] == s.qvel[j]
    ensures forall m :: 0 <= m < 3 ==> obs[|s.qpos| - 1 + |s.qvel| + m] == s.torsoCom[m]
  {
    s.qpos[1..] + s.qvel + s.torsoCom
  }

  /** The x coordinate is withheld: states that differ only in `qpos[0]`
      give the same observation. */
  lemma ObservationIgnoresX(s: SimState, t: SimState)
    requires WellFormed(s) && WellFormed(t)
    requires |s.qpos| == |t.qpos| && s.qvel == t.qvel && s.torsoCom == t.torsoCom
    requires forall i :: 1 <= i < |s.qpos| ==> s.qpos[i] == t.qpos[i]
    ensures Observation(s) == Observation(t)
  {
  }

  /** The observation has the declared width exactly when the simulator has
      18 generalized coordinates in all (9 positions and 9 velocities for
      the half-cheetah model). */
  lemma ObservationWidthMatchesSpace(s: SimState)
    requires WellFormed(s)
    ensures |Observation(s)| == ObservationWidth <==> |s.qpos| + |s.qvel| == 18
  {
  }

  /** Real multiplication, through the sign rules the control cost relies
      on. */
  function Product(a: real, b: real): (r: real)
    ensures a > 0.0 && b > 0.0 ==> r > 0.0
    ensures a < 0.0 && b < 0.0 ==> r > 0.0
    ensures a == 0.0 || b == 0.0 ==> r == 0.0
  {
    a * b
  }

  /** `np.square` of one component: never negative, and zero only for zero. */
  function Square(x: real): (r: real)
    ensures r >= 0.0
    ensures r == 0.0 <==> x == 0.0
  {
    Product(x, x)
  }

  /** Sum of the squared action components, `np.sum(np.square(action))`. */
  function SumSquares(a: seq<real>): (r: real)
    ensures r >= 0.0
  {
    if a == [] then 0.0 else Square(a[0]) + SumSquares(a[1..])
  }

  /** The sum of squares splits over any division of the action into two
      parts, so it is the sum of the components' squares in any grouping. */
  lemma {:induction false} SumSquaresAppend(a: seq<real>, b: seq<real>)
    ensures SumSquares(a + b) == SumSquares(a) + SumSquares(b)
  {
    if a == [] {
      assert a + b == b;
    } else {
      assert (a + b)[1..] == a[1..] + b;
      SumSquaresAppend(a[1..], b);
    }
  }

  /** The sum of squares vanishes exactly on the zero action. */
  lemma {:induction false} SumSquaresZero(a: seq<real>)
    ensures SumSquares(a) == 0.0 <==> forall i :: 0 <= i < |a| ==> a[i] == 0.0
  {
    if a != [] {
      SumSquaresZero(a[1..]);
      assert forall i :: 1 <= i < |a| ==> a[i] == a[1..][i - 1];
    }
  }

  /** The control cost `0.5 * 1e-1 * sum(action^2)`: never negative, zero
      exactly for the zero action, and the same for every task. */
  function ControlCost(action: seq<real>): (c: real)
    ensures c >= 0.0
    ensures c == 0.0 <==> forall i :: 0 <= i < |action| ==> action[i] == 0.0
  {
    SumSquaresZero(action);
    CtrlCostCoefficient * SumSquares(action)
  }

  /** The control cost charges each component `0.05` times its square,
      independently of the others. */
  lemma ControlCostSplits(a: seq<real>, b: seq<real>, x: real)
    ensures ControlCost(a + b) == ControlCost(a) + ControlCost(b)
    ensures ControlCost([x]) == CtrlCostCoefficient * Square(x)
    ensures ControlCost([x]) == CtrlCostCoefficient * (x * x)
  {
    SumSquaresAppend(a, b);
    assert [x][1..] == [];
    assert SumSquares([x]) == Square(x);
  }

  /** Finite-difference forward velocity `(xposafter - xposbefore) / dt`. */
  function ForwardVelocity(xBefore: real, xAfter: real, dt: real): (v: real)
    requires dt > 0.0
    ensures v * dt == xAfter - xBefore
  {
    (xAfter - xBefore) / dt
  }

  /** The `infos` record of a locomotion step. */
  datatype StepInfo = StepInfo(rewardForward: real, rewardCtrl: real, task: Task<real>)

  /** The five-tuple a locomotion `step` returns. */
  datatype StepResult = StepResult(
    observation: seq<real>, reward: real, done: bool, truncated: bool, info: StepInfo)

  /** The part of `step` both variants share once their forward reward is
      known: subtract the control cost, never end or truncate the episode,
      and echo the active task together with the reward decomposition. */
  function FinishStep(forwardReward: real, action: seq<real>, after: SimState, task: Task<real>)
    : (r: StepResult)
    requires WellFormed(after)
    ensures !r.done && !r.truncated
    ensures r.info.task == task
    ensures r.info.rewardForward == forwardReward
    ensures r.info.rewardCtrl == -ControlCost(action)
    ensures r.info.rewardCtrl <= 0.0
    ensures r.reward == r.info.rewardForward + r.info.rewardCtrl
    ensures r.reward <= forwardReward
    ensures r.observation == Observation(after)
  {
    var ctrlCost := ControlCost(action);
    StepResult(Observation(after), forwardReward - ctrlCost, false, false,
               StepInfo(forwardReward, -ctrlCost, task))
  }

  /** The control cost penalizes every step identically whatever the forward
      reward: two steps with the same action differ in reward exactly by
      their forward rewards. */
  lemma ControlCostIsTaskIndependent(f1: real, f2: real, action: seq<real>,
                                     s1: SimState, s2: SimState,
                                     t1: Task<real>, t2: Task<real>)
    requires WellFormed(s1) && WellFormed(s2)
    ensures FinishStep(f1, action, s1, t1).info.rewardCtrl
         == FinishStep(f2, action, s2, t2).info.rewardCtrl
    ensures FinishStep(f1, action, s1, t1).reward - FinishStep(f2, action, s2, t2).reward
         == f1 - f2
  {
  }
}

=== FILE: tasks.dfy ===
/**
 Tasks of the task-conditioned environments: string-keyed parameter
 dictionaries, the errors the environments raise, and the two dictionary
 accesses the environments use (`task.get(key, default)` at construction,
 `task[key]` in `reset_task`).
 */
module Tasks {

  /** A task is a dictionary from parameter name to value; it is only ever
      replaced as a whole, never updated field by field. */
  type Task<V> = map<string, V>

  /** The conditions under which an environment call fails. */
  datatype EnvError =
    | MissingKey(key: string)        // `task[key]` on a task without the key
    | InvalidAction(action: int)     // the action-space assertion of a bandit step
    | IndexOutOfRange(index: int)    // `means[action]` past the end of the means
    | InvalidDistribution            // the random source rejects its parameters

  datatype Result<T> = Ok(value: T) | Err(error: EnvError)

  /** Whether a call that returns nothing raised. */
  datatype Outcome = Pass | Fail(error: EnvError)

  /** `task.get(key, default)`: the stored value, or the default when absent. */
  function Get<V>(t: Task<V>, key: string, default: V): (v: V)
    ensures key in t ==> v == t[key]
    ensures key !in t ==> v == default
  {
    if key in t then t[key] else default
  }

  /** `task[key]`: the stored value; a missing key is an error, never a default. */
  function Lookup<V>(t: Task<V>, key: string): (r: Result<V>)
    ensures r.Ok? <==> key in t
    ensures r.Ok? ==> r.value == t[key]
    ensures r.Err? ==> r.error == MissingKey(key)
  {
    if key in t then Ok(t[key]) else Err(MissingKey(key))
  }
}
